=== FILE: README.md ===
# httpreadat in Dafny

A model of the core of `httpreadat`, a Go package that gives an `io.ReaderAt` over an HTTP
URL. Each positioned read becomes one GET with a `Range` header. A pluggable cache handler
can serve reads from a local file instead.

The model covers two parts.

- **The page-aligned disk cache** (`diskcache/disk.go`). `DiskCacheHandler` is a class with
  the same fields as the Go struct: page size, backing file, resource size, residency map,
  hit and miss counters. Its `Get` method changes them in place, as the Go method does.
  - What one `Get` does is also written as a pure function, `GetStep`, on a `CacheState`
    value. `Get` is proved to agree with it.
  - The cache's properties are lemmas about `GetStep`. They cover hits, misses, the shape of
    the coalesced fetch, exactly which pages become resident, failed fetches, and coherence
    with the remote resource. They also prove the end-to-end claim: a cache that starts coherent with the
    resource, in front of an upstream that is faithful (it returns only the resource's bytes,
    at the offsets asked) and reliable (it does not fail on a request inside the resource),
    answers every in-range read with the resource's own bytes.
  - The backing `*os.File` is a `seq<byte>`. `WriteAt` zero-fills any gap. `ReadAt`
    reports EOF on a short read.
  - The upstream `io.ReaderAt` is an oracle, a total function from (size, offset) to bytes
    and an optional error.
- **The reader** (`httpreadat.go`). It covers:
  - the `Range` value that `rawReadAt` sends;
  - the `io.ReadFull` outcome and how it is mapped to a `ReadAt` result;
  - the `Content-Range` parse in `Size`;
  - the dispatch in `ReadAt` to the cache handler or to the pass-through `nopCacheHandler`;
  - the option loop of `New`.

  The HTTP exchange is an oracle, `RoundTrip`: given a URL and a Range value, it returns a
  failure, or a Content-Range value and a body. `strings.Fields`, `strings.Split`,
  `strings.ToLower`, `strconv.ParseInt` and `fmt`'s `%d` are modelled in the `Text` and
  `Decimal` modules, with round-trip lemmas.

Files: `io.dfy` (bytes, results, errors), `byte_store.dfy` (the file), `decimal.dfy`,
`text.dfy`, `page_math.dfy` (division lemmas), `disk_cache.dfy` (the handler),
`disk_cache_props.dfy` (its properties), `http_read_at.dfy` (the reader).

### Behaviours of the code worth knowing

- **A read that reaches the tail page misses every time.** The tail page is the page holding
  the end of the resource. Only `n / PageSize` whole pages of a fetch are marked
  (`diskcache/disk.go:72-75`), so a short tail page is written to the file but never marked
  resident. With 4-byte pages over a 10-byte resource, reading byte 9 fetches the 2 bytes at
  8, and reading it again fetches them again.
  - `TailReadScenario` shows this sequence.
  - `TailPagesNeverResident` proves that no page from `fileSize / PageSize` on is ever
    resident.
  - `RepeatReadHitsIffBeforeTail` proves that a repeated read is a hit exactly when it ends
    before the tail page.
- **A zero-length read still fetches the page holding `off`.** The end page is
  `(off + len) / PageSize` (`diskcache/disk.go:91`), so a zero-length read covers one page,
  and that page is fetched when it is missing (`ZeroLengthReadFetches`). Without a cache, it
  sends the Range value `bytes=off-(off-1)`, which is not a valid byte-range-spec
  (`RangeHeader`).
- **A failed fetch still writes the bytes it got.** The bytes received are written and the
  whole pages among them are marked before the error is returned (`diskcache/disk.go:71-81`,
  `GetStepMiss`).

## Model

| member | source | states |
|---|---|---|
| DiskCache.NormalizePageSize | diskcache/disk.go:39-41 | a page size below 1 becomes the default 1<<16 (defaultPageSize, disk.go line 23) and a positive one is kept, so the result is always at least 1 |
| DiskCache.PagesForRange | diskcache/disk.go:89-94 | the start page holds `off` and the end page holds `off+len`, so start <= end; a zero-length read covers exactly one page |
| DiskCache.FirstMissing | diskcache/disk.go:44-57 | -1 exactly when every page of the span is resident; otherwise the least non-resident page of the span |
| DiskCache.LastMissing | diskcache/disk.go:44-57 | -1 exactly when every page of the span is resident; otherwise the greatest non-resident page of the span |
| DiskCache.MissingSpan | diskcache/disk.go:44-57 | the two markers are -1 together, and otherwise start <= firstMissing <= lastMissing <= end |
| DiskCache.DiskCacheHandler.FindMissing | diskcache/disk.go:44-57 | the scan loop leaves firstMissingPage and lastMissingPage equal to the least and greatest non-resident pages (or -1) |
| DiskCache.FetchRequest | diskcache/disk.go:59-69 | the fetch starts at firstMissing*PageSize and ends at the end of lastMissing's page, or exactly at fileSize when lastMissing is the tail page |
| DiskCache.MarkRange | diskcache/disk.go:72-75 | a page is resident afterwards exactly when it was before or lies in from..from+count-1 |
| DiskCache.DiskCacheHandler.constructor | diskcache/disk.go:30-36 | NewDiskCache: page size 0, the given resource size and file, nothing resident, counters zero |
| DiskCache.PlannedFetch | diskcache/disk.go:44-69 | no fetch is planned exactly when every page of the read's span is resident |
| DiskCache.Fill | diskcache/disk.go:62-75 | a miss keeps the page size and resource size, leaves cacheHit alone, adds 1 to cacheMiss and never un-marks a page |
| DiskCache.GetStep | diskcache/disk.go:38-87 | the page size ends normalised and the resource size unchanged; a hit adds 1 to cacheHit only, a miss adds 1 to cacheMiss only; residency only grows; never more than len bytes are answered |
| DiskCache.DiskCacheHandler.FillPages | diskcache/disk.go:62-75 | the miss count, the fetch, the write and the marking loop leave the state and error that Fill describes |
| DiskCache.DiskCacheHandler.Get | diskcache/disk.go:38-87 | the new state and the result are GetStep's; PageSize ends >= 1 and a positive one is unchanged; fileSize is unchanged; residency only grows; exactly one of the counters goes up by one |
| DiskCacheProperties.GetStepHit | diskcache/disk.go:82-86 | on a hit no fetch is planned, only cacheHit (+1) and the page size change, and the result is the file's ReadAt(p, off) |
| DiskCacheProperties.GetStepMiss | diskcache/disk.go:59-81 | on a miss cacheMiss goes up by 1; there is one fetch FetchRequest(first, last); the bytes are written at first*PageSize; exactly pages first..first+n/PageSize-1 are added; an error gives (0, err), otherwise the file's ReadAt |
| DiskCacheProperties.FetcherConsultedOnlyAtPlan | diskcache/disk.go:61-69 | the fetcher is asked only the planned request: fetchers that agree on it (any two on a hit) give the same step |
| DiskCacheProperties.ResidencyOnlyGrows | diskcache/disk.go:72-75 | no page is ever un-marked |
| DiskCacheProperties.ShortFetchMarksNothing | diskcache/disk.go:72-75 | a fetch of fewer than PageSize bytes leaves the residency map as it was |
| DiskCacheProperties.FailedEmptyFetch | diskcache/disk.go:69-81 | a fetch that fails with no bytes gives (0, err), leaves the file and the residency as they were, and still counts a miss |
| DiskCacheProperties.ZeroLengthReadFetches | diskcache/disk.go:89-93 | a zero-length read at a non-resident page plans a one-page fetch of that page |
| DiskCacheProperties.PlannedFetchInResource | diskcache/disk.go:59-69 | the fetch starts on a page boundary, and it stays inside the resource when the read ends on or before the tail page |
| DiskCacheProperties.NewCacheCoherent | diskcache/disk.go:30-36 | a fresh cache is coherent with the resource whose size it was given |
| DiskCacheProperties.TailPagesNeverResident | diskcache/disk.go:72-75 | in a coherent cache no page from fileSize/PageSize on is resident |
| DiskCacheProperties.WrittenByteAgrees | diskcache/disk.go:69-71 | a byte written from a faithful fetch at the fetch offset equals the resource's byte there |
| DiskCacheProperties.GetStepKeepsCoherent | diskcache/disk.go:38-87 | with a faithful fetcher, every Get keeps every resident byte equal to the resource's |
| DiskCacheProperties.ReadOfAgreeingFile | diskcache/disk.go:86 | a file read over bytes that agree with the resource returns the resource's bytes and no error |
| DiskCacheProperties.FetchCoversMissingPage | diskcache/disk.go:59-69 | every byte of a page first..last that lies in the resource lies inside the fetch |
| DiskCacheProperties.MissFillsRead | diskcache/disk.go:59-86 | after a successful miss, every byte the read asks for is held in the file with the resource's value |
| DiskCacheProperties.GetStepServesRemote | diskcache/disk.go:38-87 | a coherent cache with a faithful, reliable fetcher answers every in-resource read with exactly the resource's bytes and no error, and stays coherent |
| DiskCacheProperties.MissBeforeTailFillsSpan | diskcache/disk.go:59-75 | a miss on a read that ends before the tail page makes every page of its span resident |
| DiskCacheProperties.RepeatReadHitsIffBeforeTail | diskcache/disk.go:44-75 | after one Get, the same read again is a hit if and only if it ends before the tail page |
| DiskCacheProperties.SpanningReadScenario | diskcache/disk.go:38-87 | 4-byte pages, 10-byte resource, read 4 at 3: one fetch of 8 at 0, pages 0 and 1 resident and page 2 not, answer bytes 3..6 |
| DiskCacheProperties.TailReadScenario | diskcache/disk.go:59-75 | with pages 0 and 1 resident, reading byte 9 fetches 2 bytes at 8, page 2 stays non-resident, and the repeat plans the same fetch |
| ByteStore.WriteAt | diskcache/disk.go:71 | the file grows to cover the write; written bytes replace, a gap reads as zeros, and the rest is unchanged |
| ByteStore.ReadAt | diskcache/disk.go:86 | returns the file's bytes from off, at most n of them, with io.EOF exactly when fewer than n |
| ByteStore.ReadAfterWrite | diskcache/disk.go:71-86 | reading back what was just written gives those bytes and no error |
| HttpReadAt.RangeHeader | httpreadat.go:40 | the Range value for len >= 1 parses, under section 2.1 of RFC 7233, as the byte-range-spec off..off+len-1; for len 0 it is no valid byte-range-spec |
| HttpReadAt.ParseByteRange | httpreadat.go:40 | a parsed byte-range-spec never has its last position before its first |
| Decimal.FormatInt | httpreadat.go:40 | %d: a run of digits for a non-negative number, a "-" and a run of digits for a negative one |
| Decimal.FormatNat | httpreadat.go:40 | a decimal numeral without leading zeros whose value is n |
| Decimal.ParseFormatRoundTrip | httpreadat.go:117 | strconv.ParseInt reads back every 64-bit integer formatted by %d |
| Decimal.ParseInt64 | httpreadat.go:117 | a number is returned exactly when the text is an optionally signed run of decimal digits whose value lies in the int64 range, and it is that value |
| Decimal.ParseNonCanonical | httpreadat.go:117 | "+10" and "010" parse as 10 and "-0" as 0 |
| Decimal.ParseRejectsOverflow | httpreadat.go:117-120 | a run of digits above the int64 maximum is a range error |
| Decimal.ParseRejectsNonNumbers | httpreadat.go:113-120 | "", "*", "-" and "+" are not numbers, so the "*" check is also covered by the parse |
| HttpReadAt.ReadFull | httpreadat.go:49 | io.ReadFull: min(n, available) bytes from the body's start; no error exactly when n bytes were read; io.EOF only when none were, and always when the body ended normally with nothing; ErrUnexpectedEOF when the body ended normally after some but not all; the body's own error when it broke off early |
| HttpReadAt.MapReadFull | httpreadat.go:49-56 | the count is kept; ErrUnexpectedEOF becomes io.EOF; any other error or nil passes through |
| HttpReadAt.RawReadAt | httpreadat.go:32-57 | at most len bytes, with an error whenever fewer; a transport failure gives (0, err); otherwise min(len, body) bytes from the body's start; a short body that ended normally or with ErrUnexpectedEOF gives io.EOF, one that broke off with another error gives that error unchanged, and ErrUnexpectedEOF never comes out of reading the body |
| HttpReadAt.RawFetcher | httpreadat.go:59-62 | the fetcher handed to the cache answers every request as rawReadAt does, and so never returns more bytes than asked |
| HttpReadAt.NopGet | httpreadat.go:128-130 | the read goes unchanged to the fetcher: the answer is the fetcher's for offset off and size len, never more than len bytes from an io.ReaderAt |
| HttpReadAt.RawReadAtServesRange | httpreadat.go:32-57 | from a server that honours Range requests, rawReadAt of a non-empty in-resource range returns exactly those bytes and no error |
| HttpReadAt.ParseContentRange | httpreadat.go:97-122 | every rejection is invalidContentRangeErr; a header is accepted exactly when it has two whitespace fields, the first is "bytes" in any case, the second splits on '/' into exactly two parts and the part after '/' is a decimal int64 (so never "*"), and the length returned is that int64 |
| HttpReadAt.ContentRangeOfParts | httpreadat.go:97-122 | for "unit range/length", the result depends only on whether unit lowercases to "bytes", whether length is "*", and ParseInt(length) |
| HttpReadAt.RangePartIgnored | httpreadat.go:107-122 | the range part before "/" never changes the result |
| HttpReadAt.ContentRangeRoundTrip | httpreadat.go:97-122 | "bytes range/n", with "bytes" in any case and n any int64 in decimal, gives n |
| HttpReadAt.UnknownLengthRejected | httpreadat.go:113-115 | a complete-length of "*" is rejected with invalidContentRangeErr |
| HttpReadAt.ConfiguredRoundTripper | options.go:13-15 | without a WithRoundTripper option none is set; otherwise the last such option's value |
| HttpReadAt.ConfiguredCacheHandler | options.go:27-29 | without a WithCacheHandler option none (nil) is set; otherwise the last such option's handler |
| HttpReadAt.RangeReader.Client | httpreadat.go:73-80 | the configured round tripper when one is set, the default transport otherwise |
| HttpReadAt.RangeReader.New | httpreadat.go:20-30 | the reader holds the url and the round tripper and the cache handler the options leave set |
| HttpReadAt.RangeReader.ReadAt | httpreadat.go:59-71 | with no cache handler, the result is exactly rawReadAt's for the same (p, off); with one, it is that handler's Get step over the raw fetcher |
| HttpReadAt.RangeReader.Size | httpreadat.go:82-123 | a transport failure is returned as is; a response gives exactly the Content-Range parse of its header (its length, or invalidContentRangeErr) |
| HttpReadAt.LengthOfFirstByte | httpreadat.go:97-122 | the Content-Range value "bytes 0-0/n" parses as n for every n up to the int64 maximum |
| HttpReadAt.RangeReader.SizeOfResource | httpreadat.go:82-123 | a response whose Content-Range is "bytes 0-0/n" gives Size n for every n up to the int64 maximum |
| Text.Fields | httpreadat.go:98 | strings.Fields: every piece is a non-empty run without white space |
| Text.Split | httpreadat.go:107 | strings.Split: at least one piece, and no piece contains the separator |
| Text.FieldsOfJoin | httpreadat.go:98 | strings.Fields splits fields joined by single spaces back into those fields |
| Text.FieldsSkipBlank | httpreadat.go:98 | leading white space does not change what strings.Fields returns |
| Text.FieldsOfLayout | httpreadat.go:98 | strings.Fields returns exactly the words of any text laid out as words between runs of white space (non-empty between words, optional at either end), in order |
| Text.SplitOfJoin | httpreadat.go:107 | strings.Split on "/" inverts joining with "/" for parts that contain no "/" |
| Text.JoinSplit | httpreadat.go:107 | joining the pieces of strings.Split with the separator gives back the string |
| Text.ToLower | httpreadat.go:103 | strings.ToLower keeps the length and lowercases each character |

## Left out

- The network: building the request, `client()`'s `http.Client`, sending, and draining and
  closing the body (`httpreadat.go:35-47`, `73-95`). A `RoundTrip` oracle stands for all of
  it. A request that cannot be built counts as a failed round trip. `client()` is modelled
  only as the choice between the configured round tripper and a default one passed in.
- HTTP status codes. The code never checks the status. A server that answers a Range
  request with a whole (200) or error (416) body is read as data, byte for byte. The model
  shares this behaviour but proves nothing about such servers.
- Real `*os.File` I/O. The file is an in-memory byte sequence. Its read and write errors
  are not modelled, and the code ignores the `WriteAt` result anyway.
- The backing file is owned by one handler. Aliasing between handlers is not modelled.
- The `CacheHandler` interface (`cache.go`). Only the two implementations of the core are
  modelled, with the handler typed as `DiskCacheHandler?` (null meaning none). Other
  implementations are not modelled.
- Concurrency. The cache is documented as unsafe to share, and the model is
  single-threaded.
- Go integer widths. Offsets, sizes and page arithmetic are unbounded naturals, so
  negative offsets and `int64`/`int` overflow are not modelled. The model keeps the 64-bit
  range only in `ParseInt64`. The overflow of `off+int64(fetchSize-1)` when building the
  Range header (httpreadat.go:40) and of `firstMissingPage*h.PageSize` when computing the
  fetch offset (diskcache/disk.go:69-71) is not modelled.
- Unicode. `strings.Fields` splits on ASCII white space only. Go also splits on non-ASCII
  white space such as U+0085 and U+00A0. So the model's `Size` answer differs from Go's for
  Content-Range values that contain non-ASCII white space: `"bytes\u00A00-0/10"` gives 10 in
  Go and an error here, and `"bytes 0-0\u00A0/10"` gives an error in Go and 10 here.
  `strings.ToLower` folds ASCII letters only, which does not change the comparison with
  "bytes".
- The error text of `strconv.ParseInt` and of `http.NewRequest`. The parse only needs to
  know whether an error occurred. Errors are a small enumeration, plus `Other(code)` for
  transport errors.
- `DiskCacheProperties.GetStepServesRemote` assumes an upstream that is faithful and
  reliable. Connecting this to `HttpReadAt.HonoursRanges` would need the server's behaviour
  on out-of-range and zero-length requests. That behaviour is not modelled.

=== FILE: byte_store.dfy ===
/** The backing file of the disk cache, as the positioned read and write of an os.File. */
module ByteStore {
  import opened Io

  /** The zero bytes a file reads as in a hole left by a write beyond its end. */
  function Zeros(n: nat): (z: seq<byte>)
    ensures |z| == n && forall k :: 0 <= k < n ==> z[k] == 0
  {
    if n == 0 then [] else Zeros(n - 1) + [0]
  }

  /** os.File.WriteAt(data, off): an empty write changes nothing; otherwise data overwrites
      the file from off, the file grows to cover it, and a gap before off reads as zeros. */
  function WriteAt(file: seq<byte>, data: seq<byte>, off: nat): (r: seq<byte>)
    ensures |data| == 0 ==> r == file
    ensures |data| > 0 ==> |r| == Max(|file|, off + |data|)
    ensures |data| > 0 ==> forall x :: 0 <= x < |r| ==>
      r[x] == (if off <= x < off + |data| then data[x - off] else if x < |file| then file[x] else 0)
  {
    if |data| == 0 then file
    else if off <= |file| then
      file[..off] + data + (if off + |data| < |file| then file[off + |data|..] else [])
    else
      file + Zeros(off - |file|) + data
  }

  /** os.File.ReadAt(p, off) with len(p) == n: as many of the n bytes as the file holds
      from off, and io.EOF exactly when that is fewer than n. */
  function ReadAt(file: seq<byte>, n: nat, off: nat): (r: ReadResult)
    ensures |r.data| == Min(n, Max(0, |file| - off))
    ensures forall j :: 0 <= j < |r.data| ==> off + j < |file| && r.data[j] == file[off + j]
    ensures r.err.None? <==> |r.data| == n
    ensures r.err.Some? ==> r.err == Some(EOF)
  {
    if n == 0 then ReadResult([], None)
    else if off >= |file| then ReadResult([], Some(EOF))
    else if off + n <= |file| then ReadResult(file[off..off + n], None)
    else ReadResult(file[off..], Some(EOF))
  }

  /** Reading back what was just written at the same offset gives exactly those bytes. */
  lemma ReadAfterWrite(file: seq<byte>, data: seq<byte>, off: nat)
    ensures ReadAt(WriteAt(file, data, off), |data|, off) == ReadResult(data, None)
  {
    var w := WriteAt(file, data, off);
    var r := ReadAt(w, |data|, off);
    if |data| > 0 {
      assert |r.data| == |data|;
      forall j | 0 <= j < |data| ensures r.data[j] == data[j] {
        assert w[off + j] == data[j];
      }
    }
  }
}

=== FILE: decimal.dfy ===
/** Base-10 integers as text: the %d verb of fmt and strconv.ParseInt(s, 10, 64). */
module Decimal {
  import opened Io

  const MaxInt64: int := 0x7FFF_FFFF_FFFF_FFFF
  const MinInt64: int := -0x8000_0000_0000_0000

  predicate IsDigit(c: char) { '0' <= c <= '9' }

  /** A non-empty run of decimal digits. */
  predicate IsDigits(s: string) { |s| > 0 && forall k :: 0 <= k < |s| ==> IsDigit(s[k]) }

  function DigitChar(d: nat): (c: char)
    requires d < 10
    ensures IsDigit(c) && DigitValue(c) == d
  {
    (d + '0' as int) as char
  }

  function DigitValue(c: char): (d: nat)
    requires IsDigit(c)
    ensures d < 10
  {
    c as int - '0' as int
  }

  /** The value of a string of digits, most significant first. */
  function DigitsValue(s: string): (v: nat)
    requires forall k :: 0 <= k < |s| ==> IsDigit(s[k])
  {
    if |s| == 0 then 0
    else 10 * DigitsValue(s[..|s| - 1]) + DigitValue(s[|s| - 1])
  }

  /** The shortest decimal text of a natural number. */
  function FormatNat(n: nat): (s: string)
    ensures IsDigits(s)
    ensures DigitsValue(s) == n
    ensures |s| > 1 ==> s[0] != '0'
  {
    if n < 10 then [DigitChar(n)]
    else
      var prefix := FormatNat(n / 10);
      var s := prefix + [DigitChar(n % 10)];
      assert s[..|s| - 1] == prefix;
      s
  }

  /** fmt.Sprintf("%d", i): a minus sign before the digits of a negative number. */
  function FormatInt(i: int): (s: string)
    ensures |s| > 0
    ensures i >= 0 ==> IsDigits(s)
    ensures i < 0 ==> s[0] == '-' && IsDigits(s[1..])
  {
    if i < 0 then "-" + FormatNat(-i) else FormatNat(i)
  }

  /** The text after an optional leading sign. */
  function Unsigned(s: string): string
    requires |s| > 0
  {
    if s[0] == '+' || s[0] == '-' then s[1..] else s
  }

  /** The value of an optionally signed run of digits, whatever its size. */
  function SignedValue(s: string): int
    requires |s| > 0 && IsDigits(Unsigned(s))
  {
    if s[0] == '-' then 0 - DigitsValue(Unsigned(s)) else DigitsValue(Unsigned(s))
  }

  /** strconv.ParseInt(s, 10, 64): an optional sign, then one or more digits whose value
      fits in 64 bits; None for every other string (syntax or range error). */
  function ParseInt64(s: string): (r: Option<int>)
    ensures r.Some? <==>
      |s| > 0 && IsDigits(Unsigned(s)) && MinInt64 <= SignedValue(s) <= MaxInt64
    ensures r.Some? ==> r.value == SignedValue(s)
  {
    if |s| == 0 then None
    else
      var neg := s[0] == '-';
      var digits := Unsigned(s);
      if !IsDigits(digits) then None
      else
        var u := DigitsValue(digits);
        if !neg && u > MaxInt64 then None
        else if neg && u > MaxInt64 + 1 then None
        else
          var v: int := if neg then 0 - u as int else u;
          Some(v)
  }

  /** Leading zeros and an explicit sign are accepted, as strconv.ParseInt does. */
  lemma ParseNonCanonical()
    ensures ParseInt64("+10") == Some(10)
    ensures ParseInt64("010") == Some(10)
    ensures ParseInt64("-0") == Some(0)
  {
    assert "+10"[1..] == "10";
    assert DigitsValue("10") == 10 by { assert "10"[..1] == "1"; }
    assert DigitsValue("010") == 10 by { assert "010"[..2] == "01"; assert "01"[..1] == "0"; }
    assert "-0"[1..] == "0";
  }

  /** One past the largest int64 is a range error. */
  lemma ParseRejectsOverflow(s: string)
    requires IsDigits(s) && DigitsValue(s) > MaxInt64
    ensures ParseInt64(s) == None
  {
    assert IsDigit(s[0]);
  }

  /** Parsing what %d printed gives back the number, for every 64-bit value. */
  lemma ParseFormatRoundTrip(i: int)
    requires MinInt64 <= i <= MaxInt64
    ensures ParseInt64(FormatInt(i)) == Some(i)
  {
    var s := FormatInt(i);
    if i < 0 {
      assert s[1..] == FormatNat(-i);
    } else {
      assert s[0] != '-' && s[0] != '+' by { assert IsDigit(s[0]); }
    }
  }

  /** ParseInt64 accepts nothing but an optionally signed run of digits: no sign alone, no
      empty string, no "*". */
  lemma ParseRejectsNonNumbers()
    ensures ParseInt64("") == None
    ensures ParseInt64("*") == None
    ensures ParseInt64("-") == None && ParseInt64("+") == None
  {
    assert !IsDigit('*');
    assert "-"[1..] == "";
    assert "+"[1..] == "";
  }
}

=== FILE: disk_cache.dfy ===
/** The page-aligned disk cache: DiskCacheHandler caches the reads of a remote resource in a
    local file, one fixed-size page at a time, and remembers in memory which pages it holds.

    The handler's state is a class whose Get method changes it in place. What one Get does is
    also written as the pure function GetStep on a CacheState value; Get is proved to agree
    with it, and the properties of the cache are lemmas about GetStep. */
module DiskCache {
  import opened Io
  import opened ByteStore
  import opened PageMath

  const DefaultPageSize: int := 0x1_0000  // 1 << 16

  /** The upstream io.ReaderAt: fetcher(n, off) reads up to n bytes at off. It is an oracle:
      the model does not say where the bytes come from. */
  type Fetcher = (nat, nat) -> ReadResult

  /** io.ReaderAt never reports more bytes than the buffer it was given holds. */
  ghost predicate ReaderAtContract(fetcher: Fetcher)
  {
    forall n: nat, off: nat :: FitsBuffer(fetcher(n, off), n)
  }

  predicate FitsBuffer(r: ReadResult, n: nat) { |r.data| <= n }

  /** The answer of the fetcher to one request. */
  function Fetch(fetcher: Fetcher, req: Request): ReadResult
  {
    fetcher(req.size, req.offset)
  }

  /** A page counts as held when the residency map says true; a missing key reads as false. */
  predicate Resident(pages: map<int, bool>, i: int) { i in pages && pages[i] }

  /** The page a byte offset falls in. */
  function PageOf(x: nat, ps: int): int
    requires ps >= 1
  {
    x / ps
  }

  /** The page size Get works with: a size below 1 means the default. */
  function NormalizePageSize(ps: int): (r: int)
    ensures r >= 1
    ensures ps >= 1 ==> r == ps
    ensures ps < 1 ==> r == DefaultPageSize
  {
    if ps < 1 then DefaultPageSize else ps
  }

  /** pagesForRange: the first page and the page of the byte just past the read. The span
      is inclusive at both ends, so a read ending on a page boundary also covers the next
      page, and a zero-length read covers the page holding off. */
  function PagesForRange(off: nat, len: nat, ps: int): (span: (int, int))
    requires ps >= 1
    ensures 0 <= span.0 <= span.1
    ensures span.0 * ps <= off < span.0 * ps + ps
    ensures span.1 * ps <= off + len < span.1 * ps + ps
    ensures len == 0 ==> span.0 == span.1
  {
    DivMod(off, ps);
    DivMod(off + len, ps);
    DivMono(off, off + len, ps);
    (off / ps, (off + len) / ps)
  }

  /** The least page of lo..hi that is not resident, or -1 when every one is. The recursion
      follows the scan of Get, which keeps the first non-resident page it meets. */
  function FirstMissing(pages: map<int, bool>, lo: int, hi: int): (r: int)
    requires 0 <= lo
    ensures r == -1 <==> forall i :: lo <= i <= hi ==> Resident(pages, i)
    ensures r != -1 ==> lo <= r <= hi && !Resident(pages, r)
    ensures r != -1 ==> forall i :: lo <= i < r ==> Resident(pages, i)
    decreases hi - lo
  {
    if hi < lo then -1
    else
      var f := FirstMissing(pages, lo, hi - 1);
      if f != -1 then f else if !Resident(pages, hi) then hi else -1
  }

  /** The greatest page of lo..hi that is not resident, or -1 when every one is. */
  function LastMissing(pages: map<int, bool>, lo: int, hi: int): (r: int)
    requires 0 <= lo
    ensures r == -1 <==> forall i :: lo <= i <= hi ==> Resident(pages, i)
    ensures r != -1 ==> lo <= r <= hi && !Resident(pages, r)
    ensures r != -1 ==> forall i :: r < i <= hi ==> Resident(pages, i)
    decreases hi - lo
  {
    if hi < lo then -1
    else if !Resident(pages, hi) then hi
    else LastMissing(pages, lo, hi - 1)
  }

  /** The two markers of the scan are both -1 or both pages of the span, the first no later
      than the last. */
  lemma MissingSpan(pages: map<int, bool>, lo: int, hi: int)
    requires 0 <= lo
    ensures (FirstMissing(pages, lo, hi) == -1) == (LastMissing(pages, lo, hi) == -1)
    ensures FirstMissing(pages, lo, hi) != -1 ==>
      lo <= FirstMissing(pages, lo, hi) <= LastMissing(pages, lo, hi) <= hi
  {
  }

  /** One upstream read: size bytes at offset. */
  datatype Request = Request(offset: nat, size: nat)

  /** The coalesced fetch for the missing pages first..last: whole pages from the start of
      first, ending at the end of last, except that when last is the page holding the end of
      the resource (fileSize / ps) the fetch stops exactly at the end of the resource. */
  function FetchRequest(first: int, last: int, ps: int, fileSize: nat): (req: Request)
    requires ps >= 1 && 0 <= first <= last
    ensures req.offset == first * ps
    ensures last == fileSize / ps ==> req.offset + req.size == fileSize
    ensures last != fileSize / ps ==> req.offset + req.size == (last + 1) * ps
  {
    var pageCount := (last + 1) - first;
    MulMono(0, first, ps);
    MulMono(1, pageCount, ps);
    Distrib(first, pageCount, ps);
    Distrib(last, 1, ps);
    DivMod(fileSize, ps);
    var size := pageCount * ps;
    var size := if last == fileSize / ps then size - ps + fileSize % ps else size;
    Request(first * ps, size)
  }

  /** The residency map with pages from..from+count-1 set, one at a time in increasing order. */
  function MarkRange(pages: map<int, bool>, from: int, count: nat): (r: map<int, bool>)
    ensures forall i :: Resident(r, i) <==> Resident(pages, i) || from <= i < from + count
    decreases count
  {
    if count == 0 then pages else MarkRange(pages, from, count - 1)[from + count - 1 := true]
  }

  /** Everything a DiskCacheHandler holds, as a value. */
  datatype CacheState = CacheState(
    pageSize: int,
    fileSize: nat,
    pages: map<int, bool>,
    file: seq<byte>,
    hits: nat,
    misses: nat)

  /** The fetch Get issues for a read of len bytes at off, or None when every page the read
      covers is resident. */
  function PlannedFetch(s: CacheState, len: nat, off: nat): (r: Option<Request>)
    ensures var span := PagesForRange(off, len, NormalizePageSize(s.pageSize));
      r.None? <==> forall i :: span.0 <= i <= span.1 ==> Resident(s.pages, i)
  {
    var ps := NormalizePageSize(s.pageSize);
    var span := PagesForRange(off, len, ps);
    var first := FirstMissing(s.pages, span.0, span.1);
    var last := LastMissing(s.pages, span.0, span.1);
    if first == -1 then None else Some(FetchRequest(first, last, ps, s.fileSize))
  }

  /** The state change of a miss, on a state whose page size is already normalised: the miss
      counted, one fetch for pages first..last, its bytes written at the fetch offset and its
      whole pages marked resident; with the fetch's error. */
  function Fill(s: CacheState, first: int, last: int, fetcher: Fetcher): (filled: (CacheState, Option<Error>))
    requires s.pageSize >= 1 && 0 <= first <= last
    ensures filled.0.pageSize == s.pageSize && filled.0.fileSize == s.fileSize
    ensures filled.0.hits == s.hits && filled.0.misses == s.misses + 1
    ensures forall i :: Resident(s.pages, i) ==> Resident(filled.0.pages, i)
  {
    var ps := s.pageSize;
    var req := FetchRequest(first, last, ps, s.fileSize);
    var got := Fetch(fetcher, req);
    DivMod(|got.data|, ps);
    var file := WriteAt(s.file, got.data, req.offset);
    var pages := MarkRange(s.pages, first, |got.data| / ps);
    (s.(pages := pages, file := file, misses := s.misses + 1), got.err)
  }

  /** One call of Get(p, off, fetcher) with len(p) == len: the new state and the result. */
  function GetStep(s: CacheState, len: nat, off: nat, fetcher: Fetcher): (step: (CacheState, ReadResult))
    ensures step.0.pageSize == NormalizePageSize(s.pageSize) && step.0.fileSize == s.fileSize
    ensures PlannedFetch(s, len, off).None? ==> step.0.hits == s.hits + 1 && step.0.misses == s.misses
    ensures PlannedFetch(s, len, off).Some? ==> step.0.hits == s.hits && step.0.misses == s.misses + 1
    ensures forall i :: Resident(s.pages, i) ==> Resident(step.0.pages, i)
    ensures |step.1.data| <= len
  {
    var ps := NormalizePageSize(s.pageSize);
    var span := PagesForRange(off, len, ps);
    var first := FirstMissing(s.pages, span.0, span.1);
    var last := LastMissing(s.pages, span.0, span.1);
    var s1 := s.(pageSize := ps);
    if first != -1 then
      MissingSpan(s.pages, span.0, span.1);
      var filled := Fill(s1, first, last, fetcher);
      if filled.1.Some? then (filled.0, ReadResult([], filled.1))
      else (filled.0, ReadAt(filled.0.file, len, off))
    else
      (s1.(hits := s.hits + 1), ReadAt(s.file, len, off))
  }

  /** DiskCacheHandler: caches the reads of one remote resource in a file. Not safe to share
      between readers: nothing here is synchronised. */
  class DiskCacheHandler {
    /** The page size; 0 (or any value below 1) selects the default on the next Get. */
    var PageSize: int
    /** The contents of the backing file. */
    var file: seq<byte>
    /** The size in bytes of the remote resource. */
    var fileSize: nat
    var pages: map<int, bool>
    var cacheHit: nat
    var cacheMiss: nat

    function State(): CacheState
      reads this
    {
      CacheState(PageSize, fileSize, pages, file, cacheHit, cacheMiss)
    }

    /** NewDiskCache(f, fileSize): caches into a file that holds `file`, nothing resident yet. */
    constructor (file: seq<byte>, fileSize: nat)
      ensures State() == CacheState(0, fileSize, map[], file, 0, 0)
    {
      this.PageSize := 0;
      this.file := file;
      this.fileSize := fileSize;
      this.pages := map[];
      this.cacheHit := 0;
      this.cacheMiss := 0;
    }

    /** The scan of Get over pages startPage..endPage for the first and the last page that
        is not resident (both -1 when there is none). */
    method FindMissing(startPage: int, endPage: int) returns (first: int, last: int)
      requires 0 <= startPage <= endPage
      ensures first == FirstMissing(pages, startPage, endPage)
      ensures last == LastMissing(pages, startPage, endPage)
    {
      first, last := -1, -1;
      var i := startPage;
      while i <= endPage
        invariant startPage <= i <= endPage + 1
        invariant first == FirstMissing(pages, startPage, i - 1)
        invariant last == LastMissing(pages, startPage, i - 1)
        invariant last < i
      {
        if !Resident(pages, i) {
          if first < 0 {
            first := i;
          }
          if last < i {
            last := i;
          }
        }
        i := i + 1;
      }
    }

    /** The miss branch of Get (the lines from the miss count to the marking loop). */
    method FillPages(first: int, last: int, fetcher: Fetcher) returns (err: Option<Error>)
      requires PageSize >= 1 && 0 <= first <= last
      requires ReaderAtContract(fetcher)
      modifies this
      ensures (State(), err) == Fill(old(State()), first, last, fetcher)
    {
      ghost var s0 := State();
      cacheMiss := cacheMiss + 1;
      var req := FetchRequest(first, last, PageSize, fileSize);
      var got := Fetch(fetcher, req);
      assert FitsBuffer(got, req.size);
      file := WriteAt(file, got.data, req.offset);
      DivMod(|got.data|, PageSize);
      var fullPagesRead := |got.data| / PageSize;
      var i := 0;
      while i < fullPagesRead
        invariant 0 <= i <= fullPagesRead
        invariant pages == MarkRange(s0.pages, first, i)
        modifies this`pages
      {
        pages := pages[first + i := true];
        i := i + 1;
      }
      err := got.err;
    }

    /** Get(p, off, fetcher) with len(p) == len. */
    method Get(len: nat, off: nat, fetcher: Fetcher) returns (r: ReadResult)
      requires ReaderAtContract(fetcher)
      modifies this
      ensures (State(), r) == GetStep(old(State()), len, off, fetcher)
      ensures PageSize >= 1 && (old(PageSize) >= 1 ==> PageSize == old(PageSize))
      ensures fileSize == old(fileSize)
      ensures forall i :: Resident(old(pages), i) ==> Resident(pages, i)
      ensures cacheHit + cacheMiss == old(cacheHit) + old(cacheMiss) + 1
    {
      if PageSize < 1 {
        PageSize := DefaultPageSize;
      }
      var span := PagesForRange(off, len, PageSize);
      var startPage, endPage := span.0, span.1;
      var firstMissingPage, lastMissingPage := FindMissing(startPage, endPage);

      MissingSpan(pages, startPage, endPage);
      if firstMissingPage >= 0 {
        var readAtErr := FillPages(firstMissingPage, lastMissingPage, fetcher);
        if readAtErr.Some? {
          r := ReadResult([], readAtErr);
          return;
        }
      } else {
        cacheHit := cacheHit + 1;
      }

      r := ReadAt(file, len, off);
    }
  }
}

=== FILE: disk_cache_props.dfy ===
/** What one call of Get does to the cache, and what a sequence of calls guarantees about the
    bytes it serves, stated as lemmas about GetStep. */
module DiskCacheProperties {
  import opened Io
  import opened ByteStore
  import opened PageMath
  import opened DiskCache

  /** Every page the read of len bytes at off covers is resident. */
  predicate AllResident(s: CacheState, len: nat, off: nat)
  {
    var span := PagesForRange(off, len, NormalizePageSize(s.pageSize));
    forall i :: span.0 <= i <= span.1 ==> Resident(s.pages, i)
  }

  /** A hit: the hit counter goes up by one, nothing else but the page size changes, the
      fetcher is not asked for anything, and the answer is the file's own ReadAt. */
  lemma GetStepHit(s: CacheState, len: nat, off: nat, fetcher: Fetcher)
    requires AllResident(s, len, off)
    ensures PlannedFetch(s, len, off) == None
    ensures GetStep(s, len, off, fetcher).0
      == s.(pageSize := NormalizePageSize(s.pageSize), hits := s.hits + 1)
    ensures GetStep(s, len, off, fetcher).1 == ReadAt(s.file, len, off)
  {
  }

  /** A miss: the miss counter goes up by one whether or not the fetch succeeds; one fetch is
      issued, from the start of the first missing page to the end of the last one (cut at the
      end of the resource); the fetched bytes are written to the file at that offset; exactly
      the whole pages received become resident; and a failed fetch answers (0, err). */
  lemma GetStepMiss(s: CacheState, len: nat, off: nat, fetcher: Fetcher)
    requires !AllResident(s, len, off)
    ensures PlannedFetch(s, len, off).Some?
    ensures
      var ps := NormalizePageSize(s.pageSize);
      var span := PagesForRange(off, len, ps);
      var first := FirstMissing(s.pages, span.0, span.1);
      var last := LastMissing(s.pages, span.0, span.1);
      var req := PlannedFetch(s, len, off).value;
      var got := Fetch(fetcher, req);
      var step := GetStep(s, len, off, fetcher);
      && span.0 <= first <= last <= span.1
      && req == FetchRequest(first, last, ps, s.fileSize)
      && step.0.misses == s.misses + 1 && step.0.hits == s.hits
      && step.0.pageSize == ps && step.0.fileSize == s.fileSize
      && step.0.file == WriteAt(s.file, got.data, first * ps)
      && (forall i :: Resident(step.0.pages, i) <==>
            Resident(s.pages, i) || first <= i < first + |got.data| / ps)
      && (got.err.Some? ==> step.1 == ReadResult([], got.err))
      && (got.err.None? ==> step.1 == ReadAt(step.0.file, len, off))
  {
    var ps := NormalizePageSize(s.pageSize);
    var span := PagesForRange(off, len, ps);
    MissingSpan(s.pages, span.0, span.1);
  }

  /** Get consults the fetcher only for the one planned request: two fetchers that agree on
      it (any two, on a hit) give the same new state and the same answer. */
  lemma FetcherConsultedOnlyAtPlan(s: CacheState, len: nat, off: nat, f1: Fetcher, f2: Fetcher)
    requires PlannedFetch(s, len, off).Some? ==>
      Fetch(f1, PlannedFetch(s, len, off).value) == Fetch(f2, PlannedFetch(s, len, off).value)
    ensures GetStep(s, len, off, f1) == GetStep(s, len, off, f2)
  {
  }

  /** No page is ever un-marked: residency only grows. */
  lemma ResidencyOnlyGrows(s: CacheState, len: nat, off: nat, fetcher: Fetcher)
    ensures forall i :: Resident(s.pages, i) ==> Resident(GetStep(s, len, off, fetcher).0.pages, i)
  {
  }

  /** A zero-length read is not a no-op: when the page holding off is not resident it is
      fetched like any other miss. */
  lemma ZeroLengthReadFetches(s: CacheState, off: nat)
    requires !Resident(s.pages, off / NormalizePageSize(s.pageSize))
    ensures
      var ps := NormalizePageSize(s.pageSize);
      PlannedFetch(s, 0, off) == Some(FetchRequest(off / ps, off / ps, ps, s.fileSize))
  {
    var ps := NormalizePageSize(s.pageSize);
    assert PagesForRange(off, 0, ps) == (off / ps, off / ps);
  }

  /** A fetch that returns less than one page (a short tail page, say) marks nothing. */
  lemma ShortFetchMarksNothing(s: CacheState, len: nat, off: nat, fetcher: Fetcher)
    requires PlannedFetch(s, len, off).Some?
    requires |Fetch(fetcher, PlannedFetch(s, len, off).value).data| < NormalizePageSize(s.pageSize)
    ensures forall i :: Resident(GetStep(s, len, off, fetcher).0.pages, i) <==> Resident(s.pages, i)
  {
    var ps := NormalizePageSize(s.pageSize);
    var n := |Fetch(fetcher, PlannedFetch(s, len, off).value).data|;
    DivUnique(n, ps, 0);
  }

  /** The planned fetch starts on a page boundary, and when the read ends on or before the tail
      page (the page holding the end of the resource) it stays inside the resource. */
  lemma PlannedFetchInResource(s: CacheState, len: nat, off: nat)
    requires PlannedFetch(s, len, off).Some?
    ensures
      var ps := NormalizePageSize(s.pageSize);
      var req := PlannedFetch(s, len, off).value;
      && req.offset % ps == 0
      && ((off + len) / ps <= s.fileSize / ps ==> req.offset + req.size <= s.fileSize)
  {
    var ps := NormalizePageSize(s.pageSize);
    var span := PagesForRange(off, len, ps);
    MissingSpan(s.pages, span.0, span.1);
    var first := FirstMissing(s.pages, span.0, span.1);
    var last := LastMissing(s.pages, span.0, span.1);
    var lastPage := s.fileSize / ps;
    DivUnique(first * ps, ps, first);
    DivMod(first * ps, ps);
    if span.1 <= lastPage && last != lastPage {
      MulMono(last + 1, lastPage, ps);
      DivMod(s.fileSize, ps);
    }
  }

  // ---------------------------------------------------------------------------------------
  // The cache against the remote resource it caches.

  /** What one answer of the fetcher may be when it reads the resource `remote`: at most n
      bytes, copied from the resource at off, and an error whenever it is fewer than n. */
  predicate FetchedFrom(got: ReadResult, remote: seq<byte>, n: nat, off: nat)
  {
    && |got.data| <= n
    && (|got.data| > 0 ==> off + |got.data| <= |remote| && got.data == remote[off..off + |got.data|])
    && (|got.data| < n ==> got.err.Some?)
  }

  /** The fetcher only ever returns bytes of the resource, at the offsets asked for. */
  ghost predicate Faithful(fetcher: Fetcher, remote: seq<byte>)
  {
    forall n: nat, off: nat :: FetchedFrom(fetcher(n, off), remote, n, off)
  }

  predicate Succeeds(fetcher: Fetcher, n: nat, off: nat) { fetcher(n, off).err.None? }

  /** The fetcher does not fail on a request that lies inside the resource. */
  ghost predicate Reliable(fetcher: Fetcher, remote: seq<byte>)
  {
    forall n: nat, off: nat :: off + n <= |remote| ==> Succeeds(fetcher, n, off)
  }

  /** The cache is coherent with the resource: its size is the resource's, and every byte of
      every resident page exists in the resource and is held in the file with the same value. */
  ghost predicate Coherent(s: CacheState, remote: seq<byte>)
  {
    var ps := NormalizePageSize(s.pageSize);
    && s.fileSize == |remote|
    && forall x: nat :: Resident(s.pages, PageOf(x, ps)) ==>
         x < |remote| && x < |s.file| && s.file[x] == remote[x]
  }

  /** A fresh cache (NewDiskCache) is coherent with the resource whose size it was given,
      whatever its file holds. */
  lemma NewCacheCoherent(file: seq<byte>, remote: seq<byte>)
    ensures Coherent(CacheState(0, |remote|, map[], file, 0, 0), remote)
  {
  }

  /** No page from the tail page on (the page holding byte fileSize) is ever resident in a
      coherent cache: a short tail page is never marked, whatever is read. */
  lemma TailPagesNeverResident(s: CacheState, remote: seq<byte>, p: int)
    requires Coherent(s, remote)
    requires p >= s.fileSize / NormalizePageSize(s.pageSize)
    ensures !Resident(s.pages, p)
  {
    var ps := NormalizePageSize(s.pageSize);
    var lastPage := s.fileSize / ps;
    DivMod(s.fileSize, ps);
    MulMono(0, p, ps);
    var x: nat := p * ps + ps - 1;
    DivUnique(x, ps, p);
    MulMono(lastPage + 1, p + 1, ps);
    Distrib(lastPage, 1, ps);
    Distrib(p, 1, ps);
    assert x >= |remote|;
    assert PageOf(x, ps) == p;
  }

  /** Bytes the fetch wrote over a coherent file, or bytes it left alone, both agree with the
      resource. */
  lemma WrittenByteAgrees(file: seq<byte>, got: ReadResult, remote: seq<byte>, req: Request, x: nat)
    requires FetchedFrom(got, remote, req.size, req.offset)
    requires (x < |file| && x < |remote| && file[x] == remote[x]) || req.offset <= x < req.offset + |got.data|
    ensures x < |remote| && x < |WriteAt(file, got.data, req.offset)|
    ensures WriteAt(file, got.data, req.offset)[x] == remote[x]
  {
    if req.offset <= x < req.offset + |got.data| {
      assert got.data[x - req.offset] == remote[x];
    }
  }

  /** Get keeps the cache coherent with the resource whenever the fetcher is faithful to it. */
  lemma GetStepKeepsCoherent(s: CacheState, len: nat, off: nat, fetcher: Fetcher, remote: seq<byte>)
    requires Coherent(s, remote) && Faithful(fetcher, remote)
    ensures Coherent(GetStep(s, len, off, fetcher).0, remote)
  {
    var ps := NormalizePageSize(s.pageSize);
    var span := PagesForRange(off, len, ps);
    var first := FirstMissing(s.pages, span.0, span.1);
    if first != -1 {
      var last := LastMissing(s.pages, span.0, span.1);
      MissingSpan(s.pages, span.0, span.1);
      var req := FetchRequest(first, last, ps, s.fileSize);
      var got := Fetch(fetcher, req);
      assert FetchedFrom(got, remote, req.size, req.offset);
      var n := |got.data|;
      var s' := GetStep(s, len, off, fetcher).0;
      forall x: nat | Resident(s'.pages, PageOf(x, ps))
        ensures x < |remote| && x < |s'.file| && s'.file[x] == remote[x]
      {
        if !Resident(s.pages, PageOf(x, ps)) {
          PageInsideFetch(x, ps, first, n);
        }
        WrittenByteAgrees(s.file, got, remote, req, x);
      }
    }
  }

  /** Byte x of the file is present and equals byte x of the resource. */
  predicate AgreesAt(file: seq<byte>, remote: seq<byte>, x: int)
  {
    0 <= x < |file| && x < |remote| && file[x] == remote[x]
  }

  /** A file that agrees with the resource on every byte of a read answers that read in full. */
  lemma ReadOfAgreeingFile(file: seq<byte>, remote: seq<byte>, len: nat, off: nat)
    requires off + len <= |remote|
    requires forall x :: off <= x < off + len ==> AgreesAt(file, remote, x)
    ensures ReadAt(file, len, off) == ReadResult(remote[off..off + len], None)
  {
    var r := ReadAt(file, len, off);
    if len > 0 {
      assert AgreesAt(file, remote, off + len - 1);
    }
    assert |r.data| == len;
    forall j | 0 <= j < len ensures r.data[j] == remote[off..off + len][j] {
      assert AgreesAt(file, remote, off + j);
    }
  }

  /** A byte of the read that lies in a page the scan found missing lies inside the fetch,
      provided it lies inside the resource. */
  lemma FetchCoversMissingPage(first: int, last: int, ps: int, fileSize: nat, x: nat)
    requires ps >= 1 && 0 <= first <= x / ps <= last && x < fileSize
    ensures
      var req := FetchRequest(first, last, ps, fileSize);
      req.offset <= x < req.offset + req.size
  {
    var p := x / ps;
    DivMod(x, ps);
    MulMono(first, p, ps);
    if last != fileSize / ps {
      MulMono(p + 1, last + 1, ps);
      Distrib(p, 1, ps);
    }
  }

  /** On a miss against a coherent cache with a faithful and reliable fetcher, a read inside
      the resource has its fetch succeed, and afterwards each of its bytes is in the file with
      the resource's value. */
  lemma MissFillsRead(s: CacheState, len: nat, off: nat, fetcher: Fetcher, remote: seq<byte>)
    requires Coherent(s, remote) && Faithful(fetcher, remote) && Reliable(fetcher, remote)
    requires off + len <= |remote|
    requires !AllResident(s, len, off)
    ensures Fetch(fetcher, PlannedFetch(s, len, off).value).err.None?
    ensures forall x :: off <= x < off + len ==> AgreesAt(GetStep(s, len, off, fetcher).0.file, remote, x)
  {
    var ps := NormalizePageSize(s.pageSize);
    var span := PagesForRange(off, len, ps);
    MissingSpan(s.pages, span.0, span.1);
    var first := FirstMissing(s.pages, span.0, span.1);
    var last := LastMissing(s.pages, span.0, span.1);
    DivMono(off + len, |remote|, ps);
    PlannedFetchInResource(s, len, off);
    var req := FetchRequest(first, last, ps, s.fileSize);
    assert Succeeds(fetcher, req.size, req.offset);
    var got := Fetch(fetcher, req);
    assert FetchedFrom(got, remote, req.size, req.offset);
    var file' := GetStep(s, len, off, fetcher).0.file;
    assert file' == WriteAt(s.file, got.data, req.offset);
    forall x | off <= x < off + len
      ensures AgreesAt(file', remote, x)
    {
      DivMono(off, x, ps);
      DivMono(x, off + len, ps);
      if !Resident(s.pages, PageOf(x, ps)) {
        FetchCoversMissingPage(first, last, ps, s.fileSize, x);
      }
      WrittenByteAgrees(s.file, got, remote, req, x);
    }
  }

  /** The cache is transparent: against a coherent cache, with a fetcher faithful to the
      resource and reliable inside it, every read inside the resource answers exactly the
      resource's bytes with no error, hit or miss. */
  lemma GetStepServesRemote(s: CacheState, len: nat, off: nat, fetcher: Fetcher, remote: seq<byte>)
    requires Coherent(s, remote) && Faithful(fetcher, remote) && Reliable(fetcher, remote)
    requires off + len <= |remote|
    ensures GetStep(s, len, off, fetcher).1 == ReadResult(remote[off..off + len], None)
    ensures Coherent(GetStep(s, len, off, fetcher).0, remote)
  {
    GetStepKeepsCoherent(s, len, off, fetcher, remote);
    var ps := NormalizePageSize(s.pageSize);
    if AllResident(s, len, off) {
      forall x | off <= x < off + len ensures AgreesAt(s.file, remote, x) {
        DivMono(off, x, ps);
        DivMono(x, off + len, ps);
        assert Resident(s.pages, PageOf(x, ps));
      }
      ReadOfAgreeingFile(s.file, remote, len, off);
    } else {
      MissFillsRead(s, len, off, fetcher, remote);
      ReadOfAgreeingFile(GetStep(s, len, off, fetcher).0.file, remote, len, off);
    }
  }

  /** A miss whose span ends before the tail page, with a reliable and faithful fetcher,
      leaves every page of the span resident. */
  lemma MissBeforeTailFillsSpan(s: CacheState, len: nat, off: nat, fetcher: Fetcher, remote: seq<byte>)
    requires Coherent(s, remote) && Faithful(fetcher, remote) && Reliable(fetcher, remote)
    requires !AllResident(s, len, off)
    requires (off + len) / NormalizePageSize(s.pageSize) < s.fileSize / NormalizePageSize(s.pageSize)
    ensures AllResident(GetStep(s, len, off, fetcher).0, len, off)
  {
    var ps := NormalizePageSize(s.pageSize);
    var span := PagesForRange(off, len, ps);
    var lastPage := s.fileSize / ps;
    MissingSpan(s.pages, span.0, span.1);
    var first := FirstMissing(s.pages, span.0, span.1);
    var last := LastMissing(s.pages, span.0, span.1);
    var req := FetchRequest(first, last, ps, s.fileSize);
    MulMono(last + 1, lastPage, ps);
    DivMod(s.fileSize, ps);
    assert Succeeds(fetcher, req.size, req.offset);
    var got := Fetch(fetcher, req);
    assert FetchedFrom(got, remote, req.size, req.offset);
    Distrib(first, last + 1 - first, ps);
    PagesInWhole(last + 1 - first, ps);
    assert |got.data| / ps == last + 1 - first;
    GetStepMiss(s, len, off, fetcher);
  }

  /** Idempotent caching, exactly as far as it goes: after one Get (coherent cache, faithful
      and reliable fetcher), the same read again is a hit if and only if it ends before the
      tail page. A read that reaches the tail page misses every time. */
  lemma RepeatReadHitsIffBeforeTail(s: CacheState, len: nat, off: nat, fetcher: Fetcher, remote: seq<byte>)
    requires Coherent(s, remote) && Faithful(fetcher, remote) && Reliable(fetcher, remote)
    ensures
      var ps := NormalizePageSize(s.pageSize);
      PlannedFetch(GetStep(s, len, off, fetcher).0, len, off).None? <==> (off + len) / ps < s.fileSize / ps
  {
    var ps := NormalizePageSize(s.pageSize);
    var span := PagesForRange(off, len, ps);
    var s' := GetStep(s, len, off, fetcher).0;
    GetStepKeepsCoherent(s, len, off, fetcher, remote);
    if span.1 < s.fileSize / ps {
      if !AllResident(s, len, off) {
        MissBeforeTailFillsSpan(s, len, off, fetcher, remote);
      }
      assert AllResident(s', len, off);
    } else {
      TailPagesNeverResident(s', remote, span.1);
    }
  }

  /** A fetch that fails before any byte arrives: Get answers (0, err), no page becomes
      resident, and the miss is still counted. */
  lemma FailedEmptyFetch(s: CacheState, len: nat, off: nat, fetcher: Fetcher)
    requires PlannedFetch(s, len, off).Some?
    requires Fetch(fetcher, PlannedFetch(s, len, off).value).data == []
    requires Fetch(fetcher, PlannedFetch(s, len, off).value).err.Some?
    ensures
      var step := GetStep(s, len, off, fetcher);
      && step.1 == ReadResult([], Fetch(fetcher, PlannedFetch(s, len, off).value).err)
      && (forall i :: Resident(step.0.pages, i) <==> Resident(s.pages, i))
      && step.0.file == s.file
      && step.0.misses == s.misses + 1 && step.0.hits == s.hits
  {
    ShortFetchMarksNothing(s, len, off, fetcher);
  }

  /** A read of 4 bytes at 3, with 4-byte pages over a 10-byte resource and nothing cached,
      touches pages 0 and 1: one fetch of 8 bytes at 0, both pages become resident (page 2
      does not), and the answer is bytes 3..7 of the resource. */
  lemma SpanningReadScenario(file: seq<byte>, fetcher: Fetcher, remote: seq<byte>)
    requires |remote| == 10 && Faithful(fetcher, remote) && Reliable(fetcher, remote)
    ensures
      var s := CacheState(4, 10, map[], file, 0, 0);
      var step := GetStep(s, 4, 3, fetcher);
      && PlannedFetch(s, 4, 3) == Some(Request(0, 8))
      && step.1 == ReadResult(remote[3..7], None)
      && Resident(step.0.pages, 0) && Resident(step.0.pages, 1) && !Resident(step.0.pages, 2)
      && step.0.misses == 1 && step.0.hits == 0
  {
    var s := CacheState(4, 10, map[], file, 0, 0);
    assert PagesForRange(3, 4, 4) == (0, 1);
    assert FirstMissing(s.pages, 0, 1) == 0;
    assert LastMissing(s.pages, 0, 1) == 1;
    assert FetchRequest(0, 1, 4, 10) == Request(0, 8);
    assert Coherent(s, remote);
    GetStepServesRemote(s, 4, 3, fetcher, remote);
    assert Succeeds(fetcher, 8, 0);
    assert FetchedFrom(fetcher(8, 0), remote, 8, 0);
    GetStepMiss(s, 4, 3, fetcher);
    TailPagesNeverResident(GetStep(s, 4, 3, fetcher).0, remote, 2);
  }

  /** With pages 0 and 1 already resident, a read of the last byte (1 byte at 9) fetches the
      2-byte tail page at 8. The tail page is shorter than a page, so it is written but never
      marked: reading the same byte again fetches it again. */
  lemma TailReadScenario(s: CacheState, fetcher: Fetcher, remote: seq<byte>)
    requires s.pageSize == 4 && s.fileSize == 10
    requires Resident(s.pages, 0) && Resident(s.pages, 1)
    requires Coherent(s, remote) && Faithful(fetcher, remote)
    ensures
      var s' := GetStep(s, 1, 9, fetcher).0;
      && PlannedFetch(s, 1, 9) == Some(Request(8, 2))
      && !Resident(s'.pages, 2)
      && PlannedFetch(s', 1, 9) == Some(Request(8, 2))
      && s'.misses == s.misses + 1
  {
    assert PagesForRange(9, 1, 4) == (2, 2);
    TailPagesNeverResident(s, remote, 2);
    assert FirstMissing(s.pages, 2, 2) == 2;
    assert FetchRequest(2, 2, 4, 10) == Request(8, 2);
    var s' := GetStep(s, 1, 9, fetcher).0;
    GetStepKeepsCoherent(s, 1, 9, fetcher, remote);
    TailPagesNeverResident(s', remote, 2);
    assert FirstMissing(s'.pages, 2, 2) == 2;
    assert LastMissing(s'.pages, 2, 2) == 2;
  }
}

=== FILE: http_read_at.dfy ===
/** The HTTP reader: an io.ReaderAt over a URL that fetches each read with a Range request,
    optionally through a cache handler. The HTTP exchange itself is an oracle (RoundTrip);
    what is modelled is the text sent and parsed and the mapping of the body read's outcome. */
module HttpReadAt {
  import opened Io
  import opened Decimal
  import opened Text
  import DiskCache

  // ---------------------------------------------------------------------------------------
  // The Range request header (section 2.1 of RFC 7233).

  /** A Range value holding one byte-range-spec with both positions, as a server reads it
      (section 2.1 of RFC 7233): "bytes=" first-byte-pos "-" last-byte-pos, both runs of
      digits, with last no less than first; None when it is not of that form. */
  function ParseByteRange(v: string): (r: Option<(nat, nat)>)
    ensures r.Some? ==> r.value.0 <= r.value.1
  {
    if |v| < 6 || v[..6] != "bytes=" then None
    else
      var parts := Split(v[6..], '-');
      if |parts| != 2 || !IsDigits(parts[0]) || !IsDigits(parts[1]) then None
      else
        var first := DigitsValue(parts[0]);
        var last := DigitsValue(parts[1]);
        if last < first then None else Some((first, last))
  }

  lemma DigitsHaveNo(s: string, c: char)
    requires IsDigits(s) && !IsDigit(c)
    ensures c !in s
  {
    assert forall k :: 0 <= k < |s| ==> s[k] != c;
  }

  /** The Range value rawReadAt sends for a read of len bytes at off: "bytes=off-last" with
      last == off+len-1, the inclusive last byte position. For len >= 1 a server reads it as
      exactly the bytes off..off+len-1. A zero-length read sends a value that is no valid
      byte-range-spec: "bytes=0--1" at offset 0, a last position before the first elsewhere. */
  function RangeHeader(off: nat, len: nat): (v: string)
    ensures len >= 1 ==> ParseByteRange(v) == Some((off, off + len - 1))
    ensures len == 0 ==> ParseByteRange(v) == None
  {
    var first := FormatInt(off);
    var last := FormatInt(off + len - 1);
    if off + len >= 1 then
      RangeSpecParses(first, last);
      "bytes=" + first + "-" + last
    else
      assert last == "-1" by { assert FormatNat(1) == "1"; }
      NegativeLastRejected(first);
      "bytes=" + first + "-" + last
  }

  /** Two runs of digits around "-" parse as the positions they spell, when in order. */
  lemma RangeSpecParses(first: string, last: string)
    requires IsDigits(first) && IsDigits(last)
    ensures ParseByteRange("bytes=" + first + "-" + last)
      == if DigitsValue(last) < DigitsValue(first) then None
         else Some((DigitsValue(first), DigitsValue(last)))
  {
    var v := "bytes=" + first + "-" + last;
    assert v[..6] == "bytes=";
    assert v[6..] == first + ['-'] + last;
    DigitsHaveNo(first, '-');
    DigitsHaveNo(last, '-');
    SplitOne(first, '-', last);
    SplitNoSep(last, '-');
  }

  /** A last position of "-1" makes three pieces around "-": no byte-range-spec. */
  lemma NegativeLastRejected(first: string)
    requires IsDigits(first)
    ensures ParseByteRange("bytes=" + first + "-" + "-1") == None
  {
    var v := "bytes=" + first + "-" + "-1";
    assert v[..6] == "bytes=";
    assert v[6..] == first + ['-'] + ([] + ['-'] + "1");
    DigitsHaveNo(first, '-');
    SplitOne(first, '-', [] + ['-'] + "1");
    SplitOne([], '-', "1");
    DigitsHaveNo("1", '-');
    SplitNoSep("1", '-');
    assert |Split(v[6..], '-')| == 3;
  }

  // ---------------------------------------------------------------------------------------
  // Reading the response body.

  /** A response body as a stream: the bytes it delivers, then the error that ends it (EOF
      when the body ends normally). */
  datatype Body = Body(bytes: seq<byte>, end: Error)

  /** io.ReadFull(body, p) with len(p) == n: n bytes and no error when the body has them;
      otherwise everything the body delivered, with io.EOF if that was nothing and the body
      ended normally, io.ErrUnexpectedEOF if it was something, and the body's own error if it
      broke off. */
  function ReadFull(body: Body, n: nat): (r: ReadResult)
    ensures |r.data| <= n && |r.data| <= |body.bytes| && r.data == body.bytes[..|r.data|]
    ensures r.err.None? <==> |r.data| == n
    ensures r.err == Some(EOF) ==> |r.data| == 0
    ensures body.end == EOF && r.err == Some(UnexpectedEOF) ==> 0 < |r.data| < n
    ensures |r.data| == Min(n, |body.bytes|)
    ensures body.end == EOF && 0 < |body.bytes| < n ==> r.err == Some(UnexpectedEOF)
    ensures |body.bytes| < n && body.end != EOF ==> r.err == Some(body.end)
    ensures body.end == EOF && |body.bytes| == 0 < n ==> r.err == Some(EOF)
  {
    if |body.bytes| >= n then ReadResult(body.bytes[..n], None)
    else if body.end == EOF then
      (if |body.bytes| == 0 then ReadResult([], Some(EOF)) else ReadResult(body.bytes, Some(UnexpectedEOF)))
    else ReadResult(body.bytes, Some(body.end))
  }

  /** The result rawReadAt gives for the outcome of io.ReadFull: the same count and bytes; a
      partial read (io.ErrUnexpectedEOF) reported as io.EOF; any other error unchanged. */
  function MapReadFull(r: ReadResult): (m: ReadResult)
    ensures m.data == r.data
    ensures r.err == Some(UnexpectedEOF) ==> m.err == Some(EOF)
    ensures r.err != Some(UnexpectedEOF) ==> m.err == r.err
  {
    if r.err == Some(UnexpectedEOF) then ReadResult(r.data, Some(EOF)) else r
  }

  // ---------------------------------------------------------------------------------------
  // The HTTP exchange, as an oracle.

  /** What one GET brings back: a failure (building or sending the request), or the
      response's Content-Range value ("" when there is none) and its body. */
  datatype Response = Failed(err: Error) | Responded(contentRange: string, body: Body)

  /** One GET of a URL with a given Range value. */
  type RoundTrip = (string, string) -> Response

  /** rawReadAt(p, off) with len(p) == len, through the transport `client`. It is an
      io.ReaderAt: never more than len bytes, an error whenever fewer; the bytes are the start
      of the body. A body that ended normally or with io.ErrUnexpectedEOF before len bytes
      gives io.EOF, one that broke off with another error gives that error, and
      io.ErrUnexpectedEOF never escapes from reading the body: only a transport that failed
      with it could report it. */
  function RawReadAt(url: string, client: RoundTrip, len: nat, off: nat): (r: ReadResult)
    ensures |r.data| <= len
    ensures |r.data| < len ==> r.err.Some?
    ensures r.err.None? ==> |r.data| == len
    ensures r.err == Some(UnexpectedEOF) ==> client(url, RangeHeader(off, len)) == Failed(UnexpectedEOF)
    ensures client(url, RangeHeader(off, len)).Failed? ==>
      r == ReadResult([], Some(client(url, RangeHeader(off, len)).err))
    ensures client(url, RangeHeader(off, len)).Responded? ==>
      var body := client(url, RangeHeader(off, len)).body;
      && |r.data| == Min(len, |body.bytes|)
      && r.data == body.bytes[..|r.data|]
      && (r.err.None? <==> |r.data| == len)
      && r.err != Some(UnexpectedEOF)
      && (|body.bytes| < len && body.end == EOF ==> r.err == Some(EOF))
      && (|body.bytes| < len && body.end == UnexpectedEOF ==> r.err == Some(EOF))
      && (|body.bytes| < len && body.end != EOF && body.end != UnexpectedEOF ==> r.err == Some(body.end))
  {
    match client(url, RangeHeader(off, len))
    case Failed(e) => ReadResult([], Some(e))
    case Responded(_, body) => MapReadFull(ReadFull(body, len))
  }

  /** The raw fetcher ReadAt hands to the cache handler: rawReadAt for every request, and
      so an io.ReaderAt. */
  function RawFetcher(url: string, client: RoundTrip): (f: DiskCache.Fetcher)
    ensures forall n: nat, o: nat :: f(n, o) == RawReadAt(url, client, n, o)
    ensures DiskCache.ReaderAtContract(f)
  {
    (n: nat, o: nat) => RawReadAt(url, client, n, o)
  }

  /** nopCacheHandler.Get: hands the read straight to the fetcher. */
  function NopGet(len: nat, off: nat, fetcher: DiskCache.Fetcher): (r: ReadResult)
    ensures r == DiskCache.Fetch(fetcher, DiskCache.Request(off, len))
    ensures DiskCache.ReaderAtContract(fetcher) ==> |r.data| <= len
  {
    fetcher(len, off)
  }

  // ---------------------------------------------------------------------------------------
  // The Content-Range response header (section 4.2 of RFC 7233).

  /** The parse in Size: the Content-Range value must split into exactly two fields, the
      first "bytes" in any case, the second split by "/" into exactly two parts, the second
      part not "*" and a base-10 64-bit integer, which is the result. Every other value gives
      invalidContentRangeErr. */
  function ParseContentRange(header: string): (r: Result<int>)
    ensures r.Failure? ==> r.error == InvalidContentRange
    ensures r.Success? ==> MinInt64 <= r.value <= MaxInt64
    ensures r.Success? ==> |Fields(header)| == 2
    ensures r.Success? ==> ToLower(Fields(header)[0]) == "bytes"
    ensures r.Success? ==> |Split(Fields(header)[1], '/')| == 2
    ensures r.Success? ==> Split(Fields(header)[1], '/')[1] != "*"
    ensures r.Success? ==> ParseInt64(Split(Fields(header)[1], '/')[1]) == Some(r.value)
    ensures |Fields(header)| == 2 && ToLower(Fields(header)[0]) == "bytes"
      && |Split(Fields(header)[1], '/')| == 2 && ParseInt64(Split(Fields(header)[1], '/')[1]).Some?
      ==> r.Success?
  {
    var rangeFields := Fields(header);
    if |rangeFields| != 2 then Failure(InvalidContentRange)
    else if ToLower(rangeFields[0]) != "bytes" then Failure(InvalidContentRange)
    else
      var amts := Split(rangeFields[1], '/');
      if |amts| != 2 then Failure(InvalidContentRange)
      else if amts[1] == "*" then Failure(InvalidContentRange)
      else match ParseInt64(amts[1])
        case None => Failure(InvalidContentRange)
        case Some(n) => Success(n)
  }

  /** A Content-Range value "<unit> <range>/<length>" (one space, a range part without "/")
      is judged by its unit and its complete-length alone: the range part is never read. */
  lemma ContentRangeOfParts(unit: string, rangePart: string, length: string)
    requires IsField(unit) && IsField(rangePart) && '/' !in rangePart
    requires '/' !in length && forall k :: 0 <= k < |length| ==> !IsSpace(length[k])
    ensures ParseContentRange(unit + " " + rangePart + "/" + length)
      == if ToLower(unit) != "bytes" || length == "*" then Failure(InvalidContentRange)
         else match ParseInt64(length)
           case None => Failure(InvalidContentRange)
           case Some(n) => Success(n)
  {
    var second := rangePart + "/" + length;
    assert IsField(second) by {
      forall k | 0 <= k < |second| ensures !IsSpace(second[k]) {
        if k < |rangePart| { assert second[k] == rangePart[k]; }
        else if k > |rangePart| { assert second[k] == length[k - |rangePart| - 1]; }
      }
    }
    var header := unit + " " + rangePart + "/" + length;
    assert header == JoinFields([unit, second]) by {
      assert JoinFields([unit, second][1..]) == second;
    }
    FieldsOfJoin([unit, second]);
    assert second == rangePart + ['/'] + length;
    SplitOne(rangePart, '/', length);
    SplitNoSep(length, '/');
  }

  /** Whatever the range part, the same unit and complete-length give the same answer. */
  lemma RangePartIgnored(unit: string, r1: string, r2: string, length: string)
    requires IsField(unit) && IsField(r1) && '/' !in r1 && IsField(r2) && '/' !in r2
    requires '/' !in length && forall k :: 0 <= k < |length| ==> !IsSpace(length[k])
    ensures ParseContentRange(unit + " " + r1 + "/" + length)
      == ParseContentRange(unit + " " + r2 + "/" + length)
  {
    ContentRangeOfParts(unit, r1, length);
    ContentRangeOfParts(unit, r2, length);
  }

  /** A complete-length printed in decimal is read back exactly, for every 64-bit value and
      every spelling of the unit "bytes". */
  lemma ContentRangeRoundTrip(unit: string, rangePart: string, n: int)
    requires ToLower(unit) == "bytes" && IsField(rangePart) && '/' !in rangePart
    requires MinInt64 <= n <= MaxInt64
    ensures ParseContentRange(unit + " " + rangePart + "/" + FormatInt(n)) == Success(n)
  {
    LowerKeepsFields(unit);
    var length := FormatInt(n);
    if n < 0 {
      DigitsHaveNo(length[1..], '/');
      assert forall k :: 1 <= k < |length| ==> length[k] == length[1..][k - 1];
    } else {
      DigitsHaveNo(length, '/');
    }
    assert forall k :: 0 <= k < |length| ==> !IsSpace(length[k]) by {
      forall k | 0 <= k < |length| ensures !IsSpace(length[k]) {
        if n < 0 && k > 0 { assert length[k] == length[1..][k - 1]; }
      }
    }
    ContentRangeOfParts(unit, rangePart, length);
    assert length != "*" by { assert length[0] != '*'; }
    ParseFormatRoundTrip(n);
  }

  /** An unknown complete-length ("*") is refused. */
  lemma UnknownLengthRejected(unit: string, rangePart: string)
    requires IsField(unit) && IsField(rangePart) && '/' !in rangePart
    ensures ParseContentRange(unit + " " + rangePart + "/*") == Failure(InvalidContentRange)
  {
    ContentRangeOfParts(unit, rangePart, "*");
    assert unit + " " + rangePart + "/*" == unit + " " + rangePart + "/" + "*";
  }

  lemma BytesUnit()
    ensures ToLower("bytes") == "bytes"
    ensures IsField("0-0") && '/' !in "0-0"
  {
  }

  /** The Content-Range a server sends for the first byte of an n-byte resource gives n. */
  lemma LengthOfFirstByte(n: nat)
    requires n <= MaxInt64
    ensures ParseContentRange("bytes 0-0/" + FormatInt(n)) == Success(n)
  {
    BytesUnit();
    ContentRangeRoundTrip("bytes", "0-0", n);
    assert "bytes" + " " + "0-0" + "/" + FormatInt(n) == "bytes 0-0/" + FormatInt(n);
  }

  // ---------------------------------------------------------------------------------------
  // A server that honours Range requests.

  /** The response carries exactly the bytes first..last of the resource, then ends. */
  predicate ServesBytes(resp: Response, remote: seq<byte>, first: nat, last: nat)
    requires first <= last < |remote|
  {
    resp.Responded? && resp.body == Body(remote[first..last + 1], EOF)
  }

  /** The server answers every satisfiable single byte-range-spec with exactly those bytes. */
  ghost predicate HonoursRanges(client: RoundTrip, url: string, remote: seq<byte>)
  {
    forall v: string :: ParseByteRange(v).Some? && ParseByteRange(v).value.1 < |remote| ==>
      ServesBytes(client(url, v), remote, ParseByteRange(v).value.0, ParseByteRange(v).value.1)
  }

  /** Against such a server, rawReadAt of a non-empty range inside the resource returns those
      bytes and no error: the Range value it sends names the range it was asked for. */
  lemma RawReadAtServesRange(url: string, client: RoundTrip, remote: seq<byte>, len: nat, off: nat)
    requires HonoursRanges(client, url, remote)
    requires len >= 1 && off + len <= |remote|
    ensures RawReadAt(url, client, len, off) == ReadResult(remote[off..off + len], None)
  {
    var v := RangeHeader(off, len);
    assert ServesBytes(client(url, v), remote, off, off + len - 1);
  }

  // ---------------------------------------------------------------------------------------
  // The reader.

  /** The functional options of New. A nil round tripper or cache handler is allowed and
      stands for the default. */
  datatype ReaderOption =
    | WithRoundTripper(rt: Option<RoundTrip>)
    | WithCacheHandler(h: DiskCache.DiskCacheHandler?)

  /** The round tripper the options leave set: the one of the last WithRoundTripper, None
      when there is none. */
  function ConfiguredRoundTripper(opts: seq<ReaderOption>): (r: Option<RoundTrip>)
    ensures (forall k :: 0 <= k < |opts| ==> !opts[k].WithRoundTripper?) ==> r == None
    ensures forall k ::
      (0 <= k < |opts| && opts[k].WithRoundTripper? && forall j :: k < j < |opts| ==> !opts[j].WithRoundTripper?)
      ==> r == opts[k].rt
  {
    if |opts| == 0 then None
    else
      var init := opts[..|opts| - 1];
      assert forall k :: 0 <= k < |init| ==> init[k] == opts[k];
      match opts[|opts| - 1]
      case WithRoundTripper(rt) => rt
      case WithCacheHandler(_) => ConfiguredRoundTripper(init)
  }

  /** The cache handler the options leave set: the one of the last WithCacheHandler, null
      when there is none. */
  function ConfiguredCacheHandler(opts: seq<ReaderOption>): (r: DiskCache.DiskCacheHandler?)
    ensures (forall k :: 0 <= k < |opts| ==> !opts[k].WithCacheHandler?) ==> r == null
    ensures forall k ::
      (0 <= k < |opts| && opts[k].WithCacheHandler? && forall j :: k < j < |opts| ==> !opts[j].WithCacheHandler?)
      ==> r == opts[k].h
  {
    if |opts| == 0 then null
    else
      var init := opts[..|opts| - 1];
      assert forall k :: 0 <= k < |init| ==> init[k] == opts[k];
      match opts[|opts| - 1]
      case WithCacheHandler(h) => h
      case WithRoundTripper(_) => ConfiguredCacheHandler(init)
  }

  class RangeReader {
    const url: string
    var roundTripper: Option<RoundTrip>
    var cacheHandler: DiskCache.DiskCacheHandler?

    /** New(url, opts...): applies the options in order, each setting one field. */
    constructor New(url: string, opts: seq<ReaderOption>)
      ensures this.url == url
      ensures roundTripper == ConfiguredRoundTripper(opts)
      ensures cacheHandler == ConfiguredCacheHandler(opts)
    {
      // The options are applied to a value under construction, then the reader is built.
      var rt: Option<RoundTrip> := None;
      var ch: DiskCache.DiskCacheHandler? := null;
      for k := 0 to |opts|
        invariant rt == ConfiguredRoundTripper(opts[..k])
        invariant ch == ConfiguredCacheHandler(opts[..k])
      {
        assert opts[..k + 1][..k] == opts[..k];
        match opts[k]
        case WithRoundTripper(r) => rt := r;
        case WithCacheHandler(h) => ch := h;
      }
      assert opts[..|opts|] == opts;
      this.url := url;
      roundTripper := rt;
      cacheHandler := ch;
    }

    /** client(): the configured round tripper, or the default transport when none is set. */
    function Client(defaultTransport: RoundTrip): (rt: RoundTrip)
      reads this
      ensures roundTripper.Some? ==> rt == roundTripper.value
      ensures roundTripper.None? ==> rt == defaultTransport
    {
      match roundTripper
      case None => defaultTransport
      case Some(rt) => rt
    }

    /** ReadAt(p, off) with len(p) == len: through the cache handler when one is set, straight
        to rawReadAt otherwise. */
    method ReadAt(len: nat, off: nat, defaultTransport: RoundTrip) returns (r: ReadResult)
      modifies cacheHandler
      ensures cacheHandler == null ==> r == RawReadAt(url, Client(defaultTransport), len, off)
      ensures cacheHandler != null ==>
        (cacheHandler.State(), r)
          == DiskCache.GetStep(old(cacheHandler.State()), len, off, RawFetcher(url, Client(defaultTransport)))
    {
      var rawFetcher := RawFetcher(url, Client(defaultTransport));
      if cacheHandler == null {
        r := NopGet(len, off, rawFetcher);
      } else {
        r := cacheHandler.Get(len, off, rawFetcher);
      }
    }

    /** Size(): the complete length from the Content-Range of the answer to "bytes=0-0". */
    function Size(defaultTransport: RoundTrip): (r: Result<int>)
      reads this
      ensures Client(defaultTransport)(url, "bytes=0-0").Failed? ==>
        r == Failure(Client(defaultTransport)(url, "bytes=0-0").err)
      ensures Client(defaultTransport)(url, "bytes=0-0").Responded? && r.Failure? ==>
        r.error == InvalidContentRange
      ensures Client(defaultTransport)(url, "bytes=0-0").Responded? ==>
        r == ParseContentRange(Client(defaultTransport)(url, "bytes=0-0").contentRange)
    {
      match Client(defaultTransport)(url, "bytes=0-0")
      case Failed(e) => Failure(e)
      case Responded(contentRange, _) => ParseContentRange(contentRange)
    }

    /** A server that reports the resource's length in its Content-Range ("bytes 0-0/<n>")
        gives that length as the Size, for every length a 64-bit integer holds. */
    lemma SizeOfResource(defaultTransport: RoundTrip, n: nat)
      requires n <= MaxInt64
      requires Client(defaultTransport)(url, "bytes=0-0").Responded?
      requires Client(defaultTransport)(url, "bytes=0-0").contentRange == "bytes 0-0/" + FormatInt(n)
      ensures Size(defaultTransport) == Success(n)
    {
      LengthOfFirstByte(n);
    }
  }
}

=== FILE: io.dfy ===
/** Values shared by the reader and the cache: bytes, Go's optional error, and the
    (n, err) pair returned by an io.ReaderAt, with the n bytes themselves. */
module Io {

  newtype byte = x: int | 0 <= x < 256

  datatype Option<T> = None | Some(value: T)

  /** The error values the core distinguishes. Any other error is carried as an opaque code. */
  datatype Error =
    | EOF                  // io.EOF
    | UnexpectedEOF        // io.ErrUnexpectedEOF
    | InvalidContentRange  // invalidContentRangeErr
    | Other(code: nat)     // any other error, passed through unchanged

  /** The outcome of ReadAt(p, off): the bytes placed in p[:n] (so n == |data|) and the error. */
  datatype ReadResult = ReadResult(data: seq<byte>, err: Option<Error>)

  /** A Go (value, error) pair whose value is the zero value whenever error is non-nil. */
  datatype Result<T> = Success(value: T) | Failure(error: Error)

  function Min(a: int, b: int): int { if a <= b then a else b }
  function Max(a: int, b: int): int { if a <= b then b else a }
}

=== FILE: page_math.dfy ===
/** Facts about page arithmetic (products and floor division by a positive page size) that
    the solver does not find unaided. */
module PageMath {

  lemma DivMod(x: int, ps: int)
    requires ps >= 1
    ensures x == (x / ps) * ps + x % ps && 0 <= x % ps < ps
    ensures (x / ps) * ps <= x < (x / ps) * ps + ps
    ensures x >= 0 ==> x / ps >= 0
  {}

  lemma MulMono(a: int, b: int, ps: int)
    requires a <= b && ps >= 0
    ensures a * ps <= b * ps
  {}

  lemma Distrib(a: int, b: int, ps: int)
    ensures a * ps + b * ps == (a + b) * ps
  {}

  lemma StepUp(d: int, q: int, ps: int)
    requires d < q && ps >= 0
    ensures d * ps + ps <= q * ps
  {
    MulMono(d + 1, q, ps);
    Distrib(d, 1, ps);
  }

  /** A page index is determined by any byte inside the page. */
  lemma DivUnique(x: int, ps: int, q: int)
    requires ps >= 1 && q * ps <= x < q * ps + ps
    ensures x / ps == q
  {
    var d := x / ps;
    DivMod(x, ps);
    if d < q {
      StepUp(d, q, ps);
    } else if d > q {
      StepUp(q, d, ps);
    }
  }

  lemma DivMono(x: int, y: int, ps: int)
    requires ps >= 1 && x <= y
    ensures x / ps <= y / ps
  {
    DivMod(x, ps);
    DivMod(y, ps);
    if x / ps > y / ps {
      StepUp(y / ps, x / ps, ps);
    }
  }

  /** A byte whose page lies among the n / ps whole pages fetched from page first lies
      inside the n fetched bytes. */
  lemma PageInsideFetch(x: int, ps: int, first: int, n: nat)
    requires x >= 0 && ps >= 1 && first <= x / ps < first + n / ps
    ensures first * ps <= x < first * ps + n
  {
    var p := x / ps;
    DivMod(x, ps);
    DivMod(n, ps);
    MulMono(first, p, ps);
    MulMono(p + 1, first + n / ps, ps);
    Distrib(p, 1, ps);
    Distrib(first, n / ps, ps);
  }

  /** A whole number of pages holds exactly that many pages. */
  lemma PagesInWhole(k: int, ps: int)
    requires ps >= 1
    ensures (k * ps) / ps == k
  {
    DivUnique(k * ps, ps, k);
  }
}

=== FILE: text.dfy ===
/** The string operations of Go's strings package that the Content-Range parse relies on,
    for ASCII text: Fields, Split around one separator character, and ToLower. */
module Text {

  /** The ASCII white space that strings.Fields splits on. */
  predicate IsSpace(c: char) { c == ' ' || c == '\t' || c == '\n' || c == '\U{B}' || c == '\U{C}' || c == '\r' }

  /** A field: non-empty and free of white space. */
  predicate IsField(w: string) { |w| > 0 && forall k :: 0 <= k < |w| ==> !IsSpace(w[k]) }

  /** The maximal run of non-space characters at the start of s. */
  function LeadingWord(s: string): (w: string)
    requires |s| > 0 && !IsSpace(s[0])
    ensures 0 < |w| <= |s| && w == s[..|w|] && IsField(w)
    ensures |w| < |s| ==> IsSpace(s[|w|])
  {
    if |s| == 1 || IsSpace(s[1]) then [s[0]]
    else [s[0]] + LeadingWord(s[1..])
  }

  /** strings.Fields: the maximal runs of non-space characters, in order. */
  function Fields(s: string): (r: seq<string>)
    ensures forall k :: 0 <= k < |r| ==> IsField(r[k])
    decreases |s|
  {
    if |s| == 0 then []
    else if IsSpace(s[0]) then Fields(s[1..])
    else
      var w := LeadingWord(s);
      [w] + Fields(s[|w|..])
  }

  /** Fields joined by single spaces. */
  function JoinFields(fs: seq<string>): string
  {
    if |fs| == 0 then "" else if |fs| == 1 then fs[0] else fs[0] + " " + JoinFields(fs[1..])
  }

  lemma {:induction false} LeadingWordOf(w: string, t: string)
    requires IsField(w)
    requires |t| == 0 || IsSpace(t[0])
    ensures LeadingWord(w + t) == w
    decreases |w|
  {
    var s := w + t;
    if |w| == 1 {
    } else {
      assert s[1] == w[1];
      assert s[1..] == w[1..] + t;
      LeadingWordOf(w[1..], t);
    }
  }

  /** Fields undoes JoinFields: splitting a space-joined list of fields gives the list back. */
  lemma {:induction false} FieldsOfJoin(fs: seq<string>)
    requires forall k :: 0 <= k < |fs| ==> IsField(fs[k])
    ensures Fields(JoinFields(fs)) == fs
    decreases |fs|
  {
    if |fs| == 0 {
    } else if |fs| == 1 {
      var w := fs[0];
      LeadingWordOf(w, "");
      assert w + "" == w;
      assert w[|w|..] == "";
    } else {
      var w := fs[0];
      var rest := JoinFields(fs[1..]);
      var s := w + " " + rest;
      assert s == w + (" " + rest);
      LeadingWordOf(w, " " + rest);
      assert s[|w|..] == " " + rest;
      assert (" " + rest)[1..] == rest;
      FieldsOfJoin(fs[1..]);
      assert Fields(s) == [w] + Fields(" " + rest);
    }
  }

  /** Only white space (possibly nothing). */
  predicate IsBlank(g: string) { forall k :: 0 <= k < |g| ==> IsSpace(g[k]) }

  /** gaps[0] fs[0] gaps[1] fs[1] ... fs[n-1] gaps[n]: words laid out between runs of white space. */
  function Interleave(gaps: seq<string>, fs: seq<string>): string
    requires |gaps| == |fs| + 1
    decreases |fs|
  {
    if |fs| == 0 then gaps[0] else gaps[0] + fs[0] + Interleave(gaps[1..], fs[1..])
  }

  /** A layout of text: the gaps are white space, those between two words are not empty, and
      the first and last may be. */
  predicate IsLayout(gaps: seq<string>, fs: seq<string>)
  {
    && |gaps| == |fs| + 1
    && (forall k :: 0 <= k < |gaps| ==> IsBlank(gaps[k]))
    && (forall k :: 0 < k < |fs| ==> |gaps[k]| > 0)
    && (forall k :: 0 <= k < |fs| ==> IsField(fs[k]))
  }

  /** Leading white space does not change the fields. */
  lemma {:induction false} FieldsSkipBlank(g: string, t: string)
    requires IsBlank(g)
    ensures Fields(g + t) == Fields(t)
    decreases |g|
  {
    if |g| == 0 {
      assert g + t == t;
    } else {
      assert (g + t)[1..] == g[1..] + t;
      FieldsSkipBlank(g[1..], t);
    }
  }

  /** strings.Fields finds exactly the words of any layout, in order, whatever white space
      (spaces, tabs, line breaks, runs of them, leading or trailing) lies between them. */
  lemma {:induction false} FieldsOfLayout(gaps: seq<string>, fs: seq<string>)
    requires IsLayout(gaps, fs)
    ensures Fields(Interleave(gaps, fs)) == fs
    decreases |fs|
  {
    if |fs| == 0 {
      FieldsSkipBlank(gaps[0], "");
      assert gaps[0] + "" == gaps[0];
    } else {
      var w := fs[0];
      var rest := Interleave(gaps[1..], fs[1..]);
      assert Interleave(gaps, fs) == gaps[0] + (w + rest);
      FieldsSkipBlank(gaps[0], w + rest);
      if |fs| > 1 {
        assert |gaps[1]| > 0;
        assert rest == gaps[1] + (fs[1] + Interleave(gaps[2..], fs[2..])) by {
          assert gaps[1..][1..] == gaps[2..];
          assert fs[1..][1..] == fs[2..];
        }
        assert IsSpace(rest[0]);
      } else {
        assert rest == gaps[1];
      }
      LeadingWordOf(w, rest);
      assert (w + rest)[|w|..] == rest;
      assert IsLayout(gaps[1..], fs[1..]) by {
        forall k | 0 < k < |fs| - 1 ensures |gaps[1..][k]| > 0 {
          assert gaps[1..][k] == gaps[k + 1];
        }
      }
      FieldsOfLayout(gaps[1..], fs[1..]);
    }
  }

  /** strings.Split(s, string(sep)): the pieces between occurrences of sep, always at least
      one, none containing sep. */
  function Split(s: string, sep: char): (r: seq<string>)
    ensures |r| >= 1
    ensures forall k :: 0 <= k < |r| ==> sep !in r[k]
    decreases |s|
  {
    if |s| == 0 then [""]
    else
      var rest := Split(s[1..], sep);
      if s[0] == sep then [""] + rest
      else [[s[0]] + rest[0]] + rest[1..]
  }

  /** Pieces joined by sep. */
  function JoinWith(parts: seq<string>, sep: char): string
  {
    if |parts| == 0 then "" else if |parts| == 1 then parts[0]
    else parts[0] + [sep] + JoinWith(parts[1..], sep)
  }

  /** Joining the pieces of Split with the separator gives back the original string. */
  lemma {:induction false} JoinSplit(s: string, sep: char)
    ensures JoinWith(Split(s, sep), sep) == s
    decreases |s|
  {
    if |s| > 0 {
      var rest := Split(s[1..], sep);
      JoinSplit(s[1..], sep);
      if s[0] == sep {
        assert JoinWith([""] + rest, sep) == "" + [sep] + JoinWith(rest, sep);
        assert s == [s[0]] + s[1..];
      } else {
        var parts := [[s[0]] + rest[0]] + rest[1..];
        assert parts[1..] == rest[1..];
        if |rest| == 1 {
          assert s == [s[0]] + rest[0];
        } else {
          assert JoinWith(rest, sep) == rest[0] + [sep] + JoinWith(rest[1..], sep);
          assert s == [s[0]] + s[1..];
        }
      }
    }
  }

  lemma {:induction false} SplitNoSep(a: string, sep: char)
    requires sep !in a
    ensures Split(a, sep) == [a]
    decreases |a|
  {
    if |a| > 0 {
      assert sep !in a[1..] by { assert forall k :: 0 <= k < |a| - 1 ==> a[1..][k] == a[k + 1]; }
      SplitNoSep(a[1..], sep);
      assert [a[0]] + a[1..] == a;
    }
  }

  lemma {:induction false} SplitOne(a: string, sep: char, b: string)
    requires sep !in a
    ensures Split(a + [sep] + b, sep) == [a] + Split(b, sep)
    decreases |a|
  {
    var s := a + [sep] + b;
    if |a| == 0 {
      assert s[1..] == b;
    } else {
      assert s[1..] == a[1..] + [sep] + b;
      assert sep !in a[1..] by { assert forall k :: 0 <= k < |a| - 1 ==> a[1..][k] == a[k + 1]; }
      SplitOne(a[1..], sep, b);
      assert [a[0]] + a[1..] == a;
    }
  }

  /** Split undoes JoinWith for pieces that do not contain the separator. */
  lemma {:induction false} SplitOfJoin(parts: seq<string>, sep: char)
    requires |parts| >= 1
    requires forall k :: 0 <= k < |parts| ==> sep !in parts[k]
    ensures Split(JoinWith(parts, sep), sep) == parts
    decreases |parts|
  {
    if |parts| == 1 {
      SplitNoSep(parts[0], sep);
    } else {
      SplitOne(parts[0], sep, JoinWith(parts[1..], sep));
      SplitOfJoin(parts[1..], sep);
      assert parts == [parts[0]] + parts[1..];
    }
  }

  function LowerChar(c: char): char
  {
    if 'A' <= c <= 'Z' then (c as int + 32) as char else c
  }

  /** strings.ToLower on ASCII letters; every other character is kept. */
  function ToLower(s: string): (r: string)
    ensures |r| == |s| && forall k :: 0 <= k < |s| ==> r[k] == LowerChar(s[k])
  {
    if |s| == 0 then "" else [LowerChar(s[0])] + ToLower(s[1..])
  }

  /** Case folding keeps white space where it was, so a word that folds to a field is a field. */
  lemma LowerKeepsFields(s: string)
    requires IsField(ToLower(s))
    ensures IsField(s)
  {
    forall k | 0 <= k < |s| ensures !IsSpace(s[k]) {
      assert ToLower(s)[k] == LowerChar(s[k]);
    }
  }
}
